=== FILE: README.md ===
# Research diary screen — verified model

The research diary app is one React Native screen (`app/app/index.tsx`). It shows the diary entry for one day
and lets the reader page one week back or forward, or pick a day. The screen fetches the day's page from the
diary site and renders its text. Placeholders of the form `$img<digits>$` in the text become pictures from
that day's folder. When a page cannot be loaded, the screen makes up an entry of its own. For days before the
diary began (3 February 2026, the *epoch date*), that entry holds a joke quote. From the epoch date on, it
holds a "no internet or no entry" message.

This project models the logic of that screen in Dafny and proves properties about it:

- `calendar.dfy` (module `Calendar`): civil dates `(year, zero-based month, day)`. JavaScript's
  `setDate(getDate() + k)` is modelled by `Normalize`, which carries an overflowing day number into the
  neighbouring months. For `k >= 0`, `AddDays` is proved equal to `k` single-day steps (`StepDays` over
  `NextDay`). Negative moves are tied to `PrevDay` by `AddDaysPred` and `WeekIsSevenDays`. Successive
  moves are proved to compose. The two arrow-dimming flags `isPast` and `isFuture` are here too.
- `date_format.dfy` (module `DateFormat`): `formatDate` (`DD-MM-YYYY`), with a parser `ParseDate` as its
  proved inverse.
- `content_renderer.dfy` (module `ContentRenderer`): the split of the entry text on `$img<digits>$` with the
  placeholders kept (the scan that JavaScript's `split` performs with a capturing regular expression), the
  classification of each piece, the picture address, and a full-match rendering (see Findings).
- `content_fetcher.dfy` (module `ContentFetcher`): the page address, the ten quotes, and the fallback record.
- `view_controller.dfy` (module `ViewController`): class `DiaryScreen`. It holds the displayed date and the
  displayed entry. Its methods are the three navigation actions and the settling of a fetch.
- `wrappers.dfy` (module `Wrappers`): `Option`.

The clock, `Math.random` and the network are parameters. `today` is the day the forward arrow is compared
with. `ts` is the timestamp appended to an address. `pick` is the drawn quote index. `fetched` is the outcome
of a request (`None` when it failed, answered not-ok, or did not parse).

Three behaviours of the code are modelled exactly as written:

- The fallback quote is chosen only when the day is strictly before the epoch date (line 78). The epoch
  date itself gets the no-entry message.
- A piece counts as a picture when it merely starts with `$img` (line 91), not only when it is a complete
  placeholder.
- The year in a key is `String(getFullYear())` without padding (line 63), so years below 1000 give keys
  shorter than ten characters (`FormatDateYearField`, `FormatDateShortYear`).

## Model

| member | source | states |
|---|---|---|
| `Calendar.IsLeapYear` | app/app/index.tsx:55 | the Gregorian leap-year rule of JavaScript's `Date`; what it implies is stated by `DaysInMonth` |
| `Calendar.DaysInMonth` | app/app/index.tsx:55 | the month lengths of JavaScript's `Date`: 28 to 31 days, and 29 exactly in February of a leap year |
| `Calendar.Before` | app/app/index.tsx:78 | the `<` on dates at day granularity, also behind the `<=` and `>` of lines 101-102; its meaning is pinned by `IsPast`, `IsFuture`, `AddDaysOrder` and `Fallback` |
| `Calendar.Normalize` | app/app/index.tsx:55 | the date that `setDate(n)` yields on a date in month `m` of year `y`, for any day number `n`: always a valid date, and the date itself when `n` is in range |
| `Calendar.NormalizeSucc` | app/app/index.tsx:55 | raising the day number by one moves the resulting date exactly one day forward, with month, year and leap-year rollover |
| `Calendar.AddDays` | app/app/index.tsx:130 | `setDate(getDate() + k)` always yields a valid calendar date |
| `Calendar.AddDaysIsStepDays` | app/app/index.tsx:54-55 | moving by `k >= 0` days is the day reached by `k` successive next-day steps |
| `Calendar.AddDaysCompose` | app/app/index.tsx:130-138 | a move by `a` followed by a move by `b` is the single move by `a + b` |
| `Calendar.AddDaysOrder` | app/app/index.tsx:130-138 | a positive move lands strictly later, a negative move strictly earlier |
| `Calendar.WeekRoundTrip` | app/app/index.tsx:130-138 | a week forward then a week back is the identity, and so is a week back then a week forward |
| `Calendar.WeekIsSevenDays` | app/app/index.tsx:54-55 | the date a week ahead is seven next-day steps away and strictly later; a week back is seven steps behind and strictly earlier |
| `Calendar.IsPast` | app/app/index.tsx:102 | `isPast` holds exactly for the epoch date and every earlier date |
| `Calendar.IsFuture` | app/app/index.tsx:101 | `isFuture` holds exactly when the date a week ahead is strictly after today |
| `Calendar.IsPastStepBack` | app/app/index.tsx:130-131 | a dimmed back arrow stays dimmed after a step back |
| `Calendar.IsFutureStepForward` | app/app/index.tsx:138-139 | a dimmed forward arrow stays dimmed after a step forward |
| `DateFormat.NatToString` | app/app/index.tsx:61-63 | `String(n)`: at least one character, all decimal digits, no leading zero; `FormatDateYearField` carries this over to the year field of a key |
| `DateFormat.PadStart2` | app/app/index.tsx:61-62 | `padStart(2, '0')`: at least two characters, the input at the end, zeros before it |
| `DateFormat.ParseNatToString` | app/app/index.tsx:61-63 | the decimal string of `n` reads back as `n` |
| `DateFormat.IntToString` | app/app/index.tsx:63 | `String(y)` of a year, with a minus sign for negative years; its digits are those of `NatToString`, and `ParseIntToString` reads it back |
| `DateFormat.FormatDate` | app/app/index.tsx:60-64 | `formatDate`: padded day, `-`, padded month number, `-`, year; what it promises is stated by its partners `ParseFormatDate`, `FormatDateInjective`, `FormatDateShape` and `FormatDateChars` |
| `DateFormat.FormatDateYearField` | app/app/index.tsx:63 | the key ends in `String(year)` itself and is six characters longer than it; for a year from 0 on the year field starts with `0` only when it is the single digit `0`, so it is never padded |
| `DateFormat.FormatDateShortYear` | app/app/index.tsx:60-64 | a year from 0 to 999 gives a key of at most nine characters |
| `DateFormat.ParseFormatDate` | app/app/index.tsx:60-64 | parsing the `DD-MM-YYYY` key of a valid date gives back that date: day, month index + 1 and year |
| `DateFormat.FormatDateInjective` | app/app/index.tsx:60-64 | two different days never get the same key |
| `DateFormat.FormatDateShape` | app/app/index.tsx:60-64 | for years 1000 to 9999 the key has ten characters, `-` at positions 2 and 5 and digits elsewhere |
| `DateFormat.FormatEpoch` | app/app/index.tsx:60-64 | the epoch date (2026, month index 1, day 3) is keyed `"03-02-2026"` |
| `DateFormat.FormatDateChars` | app/app/index.tsx:60-64 | a key contains neither `.` nor `/`, so it is delimited inside an address |
| `ContentRenderer.SplitFrom` | app/app/index.tsx:88 | the scan behind `split` with a capturing pattern: text before each placeholder, then the placeholder, then the scan goes on after it; characterised by `SplitFromLeftmost` |
| `ContentRenderer.Split` | app/app/index.tsx:88 | `content.split(/(\$img\d+\$)/g)`; what it promises is stated by its partners `SplitSpec`, `SplitTokensAtOdd` and `SplitWithoutToken` |
| `ContentRenderer.TokenLength` | app/app/index.tsx:88 | a non-zero length at `q` means a complete `$img<digits>$` placeholder starts at `q` |
| `ContentRenderer.TokenLengthComplete` | app/app/index.tsx:88 | a placeholder starting at `q` is always found, and it is the only one starting there |
| `ContentRenderer.SplitFromLeftmost` | app/app/index.tsx:88 | the scan produces the leftmost placeholder split of the text after its start |
| `ContentRenderer.LeftmostUnique` | app/app/index.tsx:88 | there is only one leftmost placeholder split of a text |
| `ContentRenderer.SplitSpec` | app/app/index.tsx:88-90 | the pieces concatenate back to the content in order; k placeholders give 2k + 1 pieces; the odd pieces are exactly placeholders; no even piece contains one; no other sequence of pieces is a leftmost split |
| `ContentRenderer.SplitTokensAtOdd` | app/app/index.tsx:88 | a piece of the split is a placeholder exactly when it stands at an odd position |
| `ContentRenderer.SplitWithoutToken` | app/app/index.tsx:88 | content without a placeholder is split into exactly one piece, the content itself |
| `ContentRenderer.SplitFive` | app/app/index.tsx:88 | `$`-free text, a placeholder, `$`-free text, a placeholder and `$`-free text split into exactly those five pieces |
| `ContentRenderer.SplitExample` | app/app/index.tsx:88 | `"Hello $img1$ world $img2$ end"` splits into `"Hello "`, `"$img1$"`, `" world "`, `"$img2$"`, `" end"` |
| `ContentRenderer.RemoveDollars` | app/app/index.tsx:92 | `replace(/\$/g, '')` leaves no `$` and never lengthens the piece; that it drops exactly the `$` characters and keeps the rest in order is stated by `RemoveDollarsAppend` (it distributes over concatenation) and `RemoveDollarsNone` (text without `$` is unchanged) |
| `ContentRenderer.RemoveDollarsAppend` | app/app/index.tsx:92 | removing the `$` characters from a concatenation is the concatenation of the two removals |
| `ContentRenderer.RemoveDollarsNone` | app/app/index.tsx:92 | text without `$` comes out of the removal unchanged |
| `ContentRenderer.TokenKey` | app/app/index.tsx:92 | the key of `$imgN$` is `imgN`, and `$` + key + `$` gives the placeholder back |
| `ContentRenderer.Classify` | app/app/index.tsx:91-96 | one piece as written: an image keyed by the piece without `$` when it starts with `$img`, text otherwise; stated through `RenderContent`, `RenderTokenAt` and `RenderAsWrittenMisclassifies` |
| `ContentRenderer.PictureUrl` | app/app/index.tsx:93 | the picture address `pictures/<key of the day>/<key>.png?t=<timestamp>` under the site; `PictureUrlInjective` is its partner |
| `ContentRenderer.RenderContent` | app/app/index.tsx:86-97 | one segment per piece; a segment is an image exactly when its piece starts with `$img`; a text segment carries its piece verbatim; an image's key is the piece without `$` and its address is in the day's picture folder |
| `ContentRenderer.RenderTokensAsImages` | app/app/index.tsx:91-93 | every placeholder becomes an image whose key is `img` and its digits |
| `ContentRenderer.RenderTokenAt` | app/app/index.tsx:91-95 | a placeholder piece renders as the image keyed by what stands between its dollars, addressed in the day's picture folder |
| `ContentRenderer.RenderWithoutToken` | app/app/index.tsx:91-97 | content without a placeholder renders as the single text segment of the content, unless the content starts with `$img`, in which case it is the single image keyed by the content without `$`, addressed in the day's picture folder |
| `ContentRenderer.RenderExample` | app/app/index.tsx:86-98 | `"Hello $img1$ world $img2$ end"` renders as text, image `img1`, text, image `img2`, text, with addresses in the day's folder |
| `ContentRenderer.PictureUrlInjective` | app/app/index.tsx:93 | different (day, key, timestamp) triples give different picture addresses, for keys without `.` |
| `ContentRenderer.RenderAsWrittenMisclassifies` | app/app/index.tsx:91-92 | `"$imgx"` holds no placeholder but is rendered as an image with key `imgx`, and the segments no longer give back the text |
| `ContentRenderer.RenderContentExact` | app/app/index.tsx:88-91 | with full-match classification, images stand exactly at the odd positions, where the placeholders are |
| `ContentRenderer.RenderContentExactRoundTrip` | app/app/index.tsx:88-97 | with full-match classification, the segments give back the entry text exactly |
| `ContentRenderer.RenderAsWrittenAgreement` | app/app/index.tsx:91 | the rendering as written equals the full-match rendering exactly when no text piece starts with `$img` |
| `ContentFetcher.PageUrl` | app/app/index.tsx:70 | the page address `pages/<key of the day>.json?t=<timestamp>` under the site; `PageUrlInjective` is its partner |
| `ContentFetcher.QuoteCount` | app/app/index.tsx:38-49 | the list `Quotes` holds the ten quotes, so the draw of line 78 indexes one of them |
| `ContentFetcher.PageUrlInjective` | app/app/index.tsx:69-70 | different (day, timestamp) pairs give different page addresses |
| `ContentFetcher.NoEntryMessageNotAQuote` | app/app/index.tsx:38-49 | the no-entry message `NoEntryMessage` (line 78) is not one of the ten quotes |
| `ContentFetcher.Fallback` | app/app/index.tsx:78 | the made-up entry is named by the day's key and has no description; its content is a quote exactly when the day is strictly before the epoch date, and otherwise the no-entry message |
| `ContentFetcher.EveryQuoteDrawable` | app/app/index.tsx:38-49 | for a day before the epoch date, every one of the ten quotes can be drawn |
| `ContentFetcher.FallbackOnEpoch` | app/app/index.tsx:78 | on the epoch date itself the made-up entry is `"03-02-2026"` with the no-entry message |
| `ViewController.DiaryScreen.constructor` | app/app/index.tsx:52-56 | the screen opens on the epoch date with no entry |
| `ViewController.DiaryScreen.StepBack` | app/app/index.tsx:130 | the date becomes the date a week earlier, which is strictly earlier and a week forward from which is the old date; the entry is unchanged; no precondition besides a valid date, so a dimmed arrow does not block it |
| `ViewController.DiaryScreen.StepForward` | app/app/index.tsx:138 | the date becomes the date a week later, which is strictly later and a week back from which is the old date; the entry is unchanged; never blocked |
| `ViewController.DiaryScreen.Pick` | app/app/index.tsx:147 | a chosen date replaces the current one, a dismissal keeps it; the entry is unchanged |
| `ViewController.DiaryScreen.Settle` | app/app/index.tsx:72-78 | the loaded entry is shown; a failed fetch shows the fallback record for the requested day; the date is unchanged |
| `ViewController.DiaryScreen.Body` | app/app/index.tsx:123 | something is rendered exactly when the entry has non-empty content, and then it is `RenderContent` of that content with the current date's picture folder, so every proved property of the rendering holds for the screen |
| `ViewController.StepBackFromEpoch` | app/app/index.tsx:130-131 | from the epoch date, where the back arrow is dimmed, a step back still moves to the date a week earlier |

## Findings

| source | as written | input that shows it | evidently intended | confidence | as-written member | corrected member |
|---|---|---|---|---|---|---|
| app/app/index.tsx:91 | a piece becomes an image when it starts with `$img` | entry text `"$imgx"` holds no placeholder. It is one text piece, yet it is shown as a picture `imgx.png`, which does not exist | only a complete `$img<digits>$` placeholder becomes an image, and all other text stays text | medium, not executed | `ContentRenderer.RenderAsWrittenMisclassifies` | `ContentRenderer.RenderContentExactRoundTrip` |

The screen model (`DiaryScreen.Body`) keeps the classification as written, because that is what the screen
shows. `RenderAsWrittenAgreement` states exactly when the two renderings coincide.

## Left out

- The network request, the `response.ok` check and JSON parsing (lines 72-76) are I/O. A fetch outcome enters `Settle` as an `Option<Entry>`. A JSON body whose fields are not strings is not modelled.
- The loading flag, its `setTimeout(…, 500)` reset (lines 68, 80) and the skeleton shown meanwhile are timing.
- The race between overlapping fetches is concurrency. A response for an earlier date can arrive after a newer one. The model lets each `Settle` name the date it was requested for. The source's closure reads a `Date` object that the arrow handlers mutate in place. That aliasing is not modelled: the model replaces the date value.
- `Math.random()` is the parameter `pick`, with `0 <= pick < 10`. `new Date()` as today is the parameter `today`, and as a timestamp it is `ts`. The source reads the clock separately for each picture. The model uses one `ts` per rendering.
- Time of day, time zones and daylight saving are not modelled: dates are days. A date picked with a time of day on the epoch date would compare as later than the epoch in the source (`isPast` false, no quote). In the model it is equal.
- `Calendar.Normalize` models `setDate` (line 55), which carries day numbers through ECMAScript's MakeDay. The `Date` constructor maps years 0 to 99 to 1900 to 1999; that mapping is not modelled, because the screen only constructs `new Date(2026, 1, 3)`.
- The JavaScript `Date` range limit (about 273,790 years either side of 1970) is not modelled: years are unbounded integers.
- `Skeleton`, `ScalableImage` (the floating-point aspect ratio), the JSX layout, React keys, the picker widget beyond its `onChange`, and `StyleSheet` (lines 6-36, 104-173) are UI.

=== FILE: calendar.dfy ===
/**
 * Civil dates at day granularity, as the diary screen's `Date` objects are used:
 * a year, a ZERO-BASED month (0 = January, as `Date.getMonth()` returns it) and a
 * day of the month. Moving a date by `setDate(getDate() + k)` lets the day overflow
 * and carries it into the neighbouring months, which `Normalize` models.
 */
module Calendar {

  datatype Date = Date(year: int, month: int, day: int)
  {
    /** A real calendar day of the proleptic Gregorian calendar. */
    predicate Valid() {
      0 <= month < 12 && 1 <= day <= DaysInMonth(year, month)
    }
  }

  /** The first diary entry: 3 February 2026 (`new Date(2026, 1, 3)`). */
  const Epoch: Date := Date(2026, 1, 3)

  predicate IsLeapYear(y: int) {
    y % 4 == 0 && (y % 100 != 0 || y % 400 == 0)
  }

  function DaysInMonth(y: int, m: int): (n: int)
    requires 0 <= m < 12
    ensures 28 <= n <= 31
    ensures n == 29 <==> m == 1 && IsLeapYear(y)
  {
    if m == 1 then (if IsLeapYear(y) then 29 else 28)
    else if m == 3 || m == 5 || m == 8 || m == 10 then 30
    else 31
  }

  /** Chronological order; on valid dates it is the order of JavaScript time values at midnight. */
  predicate Before(a: Date, b: Date) {
    a.year < b.year ||
    (a.year == b.year && (a.month < b.month || (a.month == b.month && a.day < b.day)))
  }

  lemma BeforeTransitive(a: Date, b: Date, c: Date)
    requires Before(a, b) && Before(b, c)
    ensures Before(a, c)
  {
  }

  /** The day after `d`: the independent reference for "k days later". */
  function NextDay(d: Date): (r: Date)
    requires d.Valid()
    ensures r.Valid() && Before(d, r)
  {
    if d.day < DaysInMonth(d.year, d.month) then Date(d.year, d.month, d.day + 1)
    else if d.month < 11 then Date(d.year, d.month + 1, 1)
    else Date(d.year + 1, 0, 1)
  }

  /** The day before `d`. */
  function PrevDay(d: Date): (r: Date)
    requires d.Valid()
    ensures r.Valid() && Before(r, d)
  {
    if d.day > 1 then Date(d.year, d.month, d.day - 1)
    else if d.month > 0 then Date(d.year, d.month - 1, DaysInMonth(d.year, d.month - 1))
    else Date(d.year - 1, 11, 31)
  }

  lemma NextDayPrevDay(d: Date)
    requires d.Valid()
    ensures PrevDay(NextDay(d)) == d
    ensures NextDay(PrevDay(d)) == d
  {
  }

  /**
   * The valid date that `setDate(n)` yields on a date in month `m` of year `y`, for a day
   * number `n` that may be out of range: overflow runs into the following months,
   * underflow (n < 1) into the preceding ones.
   */
  function Normalize(y: int, m: int, n: int): (r: Date)
    requires 0 <= m < 12
    ensures r.Valid()
    ensures 1 <= n <= DaysInMonth(y, m) ==> r == Date(y, m, n)
    decreases if n < 1 then 1 - n else 0, n
  {
    if n < 1 then
      var py := if m == 0 then y - 1 else y;
      var pm := if m == 0 then 11 else m - 1;
      Normalize(py, pm, n + DaysInMonth(py, pm))
    else if n > DaysInMonth(y, m) then
      var ny := if m == 11 then y + 1 else y;
      var nm := if m == 11 then 0 else m + 1;
      Normalize(ny, nm, n - DaysInMonth(y, m))
    else
      Date(y, m, n)
  }

  /** Raising the day number by one moves the normalised date by exactly one day. */
  lemma {:induction false} NormalizeSucc(y: int, m: int, n: int)
    requires 0 <= m < 12
    ensures Normalize(y, m, n + 1) == NextDay(Normalize(y, m, n))
    decreases if n < 1 then 1 - n else 0, n
  {
    if n < 0 {
      var py := if m == 0 then y - 1 else y;
      var pm := if m == 0 then 11 else m - 1;
      NormalizeSucc(py, pm, n + DaysInMonth(py, pm));
    } else if n > DaysInMonth(y, m) {
      var ny := if m == 11 then y + 1 else y;
      var nm := if m == 11 then 0 else m + 1;
      NormalizeSucc(ny, nm, n - DaysInMonth(y, m));
    }
  }

  /** `date.setDate(date.getDate() + k)`: the date `k` days after (or before, k < 0) `d`. */
  function AddDays(d: Date, k: int): (r: Date)
    requires d.Valid()
    ensures r.Valid()
  {
    Normalize(d.year, d.month, d.day + k)
  }

  /** `d` after `k` single-day steps forward. */
  function StepDays(d: Date, k: nat): (r: Date)
    requires d.Valid()
    ensures r.Valid()
  {
    if k == 0 then d else NextDay(StepDays(d, k - 1))
  }

  lemma AddDaysZero(d: Date)
    requires d.Valid()
    ensures AddDays(d, 0) == d
  {
  }

  lemma AddDaysSucc(d: Date, k: int)
    requires d.Valid()
    ensures AddDays(d, k + 1) == NextDay(AddDays(d, k))
  {
    NormalizeSucc(d.year, d.month, d.day + k);
  }

  lemma AddDaysPred(d: Date, k: int)
    requires d.Valid()
    ensures AddDays(d, k - 1) == PrevDay(AddDays(d, k))
  {
    AddDaysSucc(d, k - 1);
    NextDayPrevDay(AddDays(d, k - 1));
  }

  /** Moving by `k >= 0` days is exactly `k` single-day steps forward. */
  lemma {:induction false} AddDaysIsStepDays(d: Date, k: nat)
    requires d.Valid()
    ensures AddDays(d, k) == StepDays(d, k)
  {
    if k == 0 {
      AddDaysZero(d);
    } else {
      AddDaysIsStepDays(d, k - 1);
      AddDaysSucc(d, k - 1);
    }
  }

  /** Successive moves compose: `setDate` by `a` then by `b` is one move by `a + b`. */
  lemma {:induction false} AddDaysCompose(d: Date, a: int, b: int)
    requires d.Valid()
    ensures AddDays(AddDays(d, a), b) == AddDays(d, a + b)
    decreases if b < 0 then -b else b
  {
    if b > 0 {
      AddDaysCompose(d, a, b - 1);
      AddDaysSucc(AddDays(d, a), b - 1);
      AddDaysSucc(d, a + b - 1);
    } else if b < 0 {
      AddDaysCompose(d, a, b + 1);
      AddDaysPred(AddDays(d, a), b + 1);
      AddDaysPred(d, a + b + 1);
    } else {
      AddDaysZero(AddDays(d, a));
    }
  }

  /** A move by a positive number of days always lands strictly later, a negative one strictly earlier. */
  lemma {:induction false} AddDaysOrder(d: Date, k: int)
    requires d.Valid()
    ensures k > 0 ==> Before(d, AddDays(d, k))
    ensures k < 0 ==> Before(AddDays(d, k), d)
    decreases if k < 0 then -k else k
  {
    if k > 1 {
      AddDaysOrder(d, k - 1);
      AddDaysSucc(d, k - 1);
      BeforeTransitive(d, AddDays(d, k - 1), AddDays(d, k));
    } else if k == 1 {
      AddDaysSucc(d, 0);
      AddDaysZero(d);
    } else if k < -1 {
      AddDaysOrder(d, k + 1);
      AddDaysPred(d, k + 1);
      BeforeTransitive(AddDays(d, k), AddDays(d, k + 1), d);
    } else if k == -1 {
      AddDaysPred(d, 0);
      AddDaysZero(d);
    }
  }

  /** A week forward then a week back (or the other way round) returns to the same day. */
  lemma WeekRoundTrip(d: Date)
    requires d.Valid()
    ensures AddDays(AddDays(d, 7), -7) == d
    ensures AddDays(AddDays(d, -7), 7) == d
  {
    AddDaysCompose(d, 7, -7);
    AddDaysCompose(d, -7, 7);
    AddDaysZero(d);
  }

  /**
   * A week forward is the day reached by seven single-day steps, strictly later; a week
   * back is the day from which seven steps lead back to `d`, strictly earlier.
   */
  lemma WeekIsSevenDays(d: Date)
    requires d.Valid()
    ensures AddDays(d, 7) == StepDays(d, 7) && Before(d, AddDays(d, 7))
    ensures StepDays(AddDays(d, -7), 7) == d && Before(AddDays(d, -7), d)
  {
    AddDaysIsStepDays(d, 7);
    AddDaysOrder(d, 7);
    AddDaysIsStepDays(AddDays(d, -7), 7);
    AddDaysOrder(d, -7);
    WeekRoundTrip(d);
  }

  /** `isPast`: the back arrow is dimmed on the epoch date and on every earlier date. */
  function IsPast(d: Date): (r: bool)
    ensures r <==> d == Epoch || Before(d, Epoch)
  {
    !Before(Epoch, d)
  }

  /** `isFuture`: the forward arrow is dimmed when a week later lies after `today`. */
  function IsFuture(d: Date, today: Date): (r: bool)
    requires d.Valid()
    ensures r <==> !(AddDays(d, 7) == today || Before(AddDays(d, 7), today))
  {
    Before(today, AddDays(d, 7))
  }

  /** Once dimmed, the back arrow stays dimmed as the user keeps stepping back. */
  lemma IsPastStepBack(d: Date)
    requires d.Valid() && IsPast(d)
    ensures IsPast(AddDays(d, -7))
  {
    AddDaysOrder(d, -7);
  }

  /** Once dimmed, the forward arrow stays dimmed as the user keeps stepping forward. */
  lemma IsFutureStepForward(d: Date, today: Date)
    requires d.Valid() && IsFuture(d, today)
    ensures IsFuture(AddDays(d, 7), today)
  {
    AddDaysOrder(AddDays(d, 7), 7);
    BeforeTransitive(today, AddDays(d, 7), AddDays(AddDays(d, 7), 7));
  }
}

=== FILE: content_fetcher.dfy ===
/**
 * Fetching a day's entry: the page address, and the record shown when the page cannot
 * be loaded. The request itself, the response check and the JSON parsing are I/O and are
 * not part of this model; a fetch outcome enters as an `Option<Entry>`.
 */
module ContentFetcher {
  import opened Calendar
  import opened DateFormat
  import opened Wrappers
  import opened ContentRenderer

  /** A diary entry as a page's JSON holds it, or as the screen synthesises it. */
  datatype Entry = Entry(name: string, description: Option<string>, content: Option<string>)

  /** The placeholder messages for days before the diary began. */
  const Quotes: seq<string> := [
    "Whoa, Zeitreisender! 🕰️ Hier war damals noch Baustelle.",
    "Du bist zu früh dran – selbst die Vergangenheit war noch nicht so weit.",
    "404: Inhalt noch nicht erfunden.",
    "Bitte Geduld – wir müssen erst noch eine Zeitmaschine bauen.",
    "Damals war hier nur heiße Luft und gute Vorsätze.",
    "Netter Versuch! Aber selbst Marty McFly hätte hier nichts gefunden.",
    "Zurück in die Zukunft? Eher zurück ins Nichts.",
    "Dieser Tag hatte noch nichts zu erzählen.",
    "Du bist vor dem Anfang gelandet. Respekt!",
    "Hier gibt’s noch keinen Content – wir warten noch auf die Erfindung der Zeit."
  ]

  /** There are ten quotes, so a draw `floor(r * 10)` with `0 <= r < 1` indexes one of them. */
  lemma QuoteCount()
    ensures |Quotes| == 10
  {
  }

  /** The message for a missing entry from the epoch date on. */
  const NoEntryMessage: string := "Kein Internet oder kein Eintrag gefunden."

  /** `pages/<DD-MM-YYYY>.json?t=<timestamp>` under the site; `ts` stands for the clock reading. */
  function PageUrl(date: Date, ts: int): string
    requires date.Valid()
  {
    SiteBase + "pages/" + FormatDate(date) + ".json?t=" + IntToString(ts)
  }

  lemma PageUrlShape(p: string, f: string, t: string)
    ensures p + f + ".json?t=" + t == p + (f + ['.'] + ("json?t=" + t))
  {
  }

  /** Each day, and each timestamp, has its own page address. */
  lemma PageUrlInjective(d1: Date, t1: int, d2: Date, t2: int)
    requires d1.Valid() && d2.Valid() && PageUrl(d1, t1) == PageUrl(d2, t2)
    ensures d1 == d2 && t1 == t2
  {
    var prefix := SiteBase + "pages/";
    var f1, f2 := FormatDate(d1), FormatDate(d2);
    var n1, n2 := IntToString(t1), IntToString(t2);
    PageUrlShape(prefix, f1, n1);
    PageUrlShape(prefix, f2, n2);
    PrefixCancel(prefix, f1 + ['.'] + ("json?t=" + n1), f2 + ['.'] + ("json?t=" + n2));
    FormatDateChars(d1);
    FormatDateChars(d2);
    SeparatorSplits(f1, "json?t=" + n1, '.', f2, "json?t=" + n2);
    PrefixCancel("json?t=", n1, n2);
    FormatDateInjective(d1, d2);
    IntToStringInjective(t1, t2);
  }

  lemma NoEntryMessageNotAQuote()
    ensures NoEntryMessage !in Quotes
  {
    assert |Quotes[0]| == 55;
    assert |Quotes[1]| == 71;
    assert |Quotes[2]| == 32;
    assert |Quotes[3]| == 60;
    assert |Quotes[4]| == 49;
    assert |Quotes[5]| == 67;
    assert |Quotes[6]| == 46;
    assert |Quotes[9]| == 77;
    assert |NoEntryMessage| == 41 && NoEntryMessage[37] == 'd';
    assert Quotes[7][37] == 'l' && Quotes[8][37] == 'e';
  }

  /**
   * The record shown when the page cannot be loaded: named by the day's key, holding the
   * quote at `pick` (the `Math.floor(Math.random() * quotes.length)` draw) for days
   * strictly before the epoch date, and the no-entry message from the epoch date on.
   */
  function Fallback(date: Date, pick: nat): (e: Entry)
    requires date.Valid() && pick < |Quotes|
    ensures e.name == FormatDate(date) && e.description.None? && e.content.Some?
    ensures e.content.value in Quotes <==> Before(date, Epoch)
    ensures !Before(date, Epoch) ==> e.content.value == NoEntryMessage
  {
    NoEntryMessageNotAQuote();
    Entry(FormatDate(date), None, Some(if Before(date, Epoch) then Quotes[pick] else NoEntryMessage))
  }

  /** Every quote can be drawn for every day before the epoch date. */
  lemma EveryQuoteDrawable(date: Date, q: string)
    requires date.Valid() && Before(date, Epoch) && q in Quotes
    ensures exists pick :: 0 <= pick < |Quotes| && Fallback(date, pick).content == Some(q)
  {
    var pick :| 0 <= pick < |Quotes| && Quotes[pick] == q;
    assert Fallback(date, pick).content == Some(q);
  }

  /** The epoch date itself is not "before the diary": it gets the no-entry message. */
  lemma FallbackOnEpoch(pick: nat)
    requires pick < |Quotes|
    ensures Fallback(Epoch, pick) == Entry("03-02-2026", None, Some(NoEntryMessage))
  {
    FormatEpoch();
  }
}

=== FILE: content_renderer.dfy ===
/**
 * `renderContent`: the entry text is split on the image placeholder `$img<digits>$`
 * with the placeholders kept as pieces of their own (a split on a regular expression
 * with a capturing group), and every piece becomes a text run or an image.
 *
 * The split is modelled as the scan JavaScript's `String.prototype.split` performs:
 * from the end `p` of the last match, try the expression at each position `q`; on a
 * match emit `s[p..q]` and the matched token and continue after it; at the end emit
 * the rest. `LeftmostFrom` describes the result independently, and the split is the
 * only sequence of pieces that satisfies it.
 */
module ContentRenderer {
  import opened Calendar
  import opened DateFormat

  const SiteBase: string := "https://schneeherzstudio.github.io/research-diary/"

  /** The four characters `$img` stand at position `q` of `s`. */
  predicate ImgAt(s: string, q: nat) {
    q + 4 <= |s| && s[q] == '$' && s[q + 1] == 'i' && s[q + 2] == 'm' && s[q + 3] == 'g'
  }

  /** A full match of the placeholder: `$img`, one or more ASCII digits, `$`. */
  predicate IsToken(t: string) {
    |t| >= 6 && ImgAt(t, 0) && t[|t| - 1] == '$' &&
    forall k :: 4 <= k < |t| - 1 ==> IsDigit(t[k])
  }

  /** `part.startsWith('$img')`. */
  predicate StartsWithImg(t: string) {
    ImgAt(t, 0)
  }

  /** Length of the run of digits that starts at `i`. */
  function DigitRun(s: string, i: nat): (n: nat)
    requires i <= |s|
    ensures i + n <= |s|
    ensures forall k :: i <= k < i + n ==> IsDigit(s[k])
    ensures i + n == |s| || !IsDigit(s[i + n])
    decreases |s| - i
  {
    if i < |s| && IsDigit(s[i]) then 1 + DigitRun(s, i + 1) else 0
  }

  /** The placeholder pattern tried at position `q`: the length of the match there, or 0 for none. */
  function TokenLength(s: string, q: nat): (n: nat)
    requires q <= |s|
    ensures n > 0 ==> q + n <= |s| && IsToken(s[q..q + n])
  {
    if ImgAt(s, q) then
      var d := DigitRun(s, q + 4);
      if d > 0 && q + 4 + d < |s| && s[q + 4 + d] == '$' then 5 + d else 0
    else 0
  }

  lemma {:induction false} DigitRunExact(s: string, i: nat, j: nat)
    requires i <= j < |s| && !IsDigit(s[j])
    requires forall k :: i <= k < j ==> IsDigit(s[k])
    ensures DigitRun(s, i) == j - i
    decreases j - i
  {
    if i < j {
      DigitRunExact(s, i + 1, j);
    }
  }

  /** The match at `q` is found whenever there is one, and it is the only placeholder starting at `q`. */
  lemma TokenLengthComplete(s: string, q: nat, e: nat)
    requires q <= e <= |s|
    ensures IsToken(s[q..e]) <==> TokenLength(s, q) > 0 && e == q + TokenLength(s, q)
  {
    if IsToken(s[q..e]) {
      var t := s[q..e];
      assert t[0] == s[q] && t[1] == s[q + 1] && t[2] == s[q + 2] && t[3] == s[q + 3];
      forall k | q + 4 <= k < e - 1
        ensures IsDigit(s[k])
      {
        assert s[k] == t[k - q];
      }
      assert s[e - 1] == t[|t| - 1];
      DigitRunExact(s, q + 4, e - 1);
    }
  }

  /** No placeholder of `s` starts at a position in `[lo, hi)`. */
  ghost predicate NoTokenStartsIn(s: string, lo: nat, hi: nat) {
    forall k, e {:trigger IsToken(s[k..e])} :: lo <= k < hi && k <= e <= |s| ==> !IsToken(s[k..e])
  }

  /** Some substring of `t` is a placeholder. */
  ghost predicate ContainsToken(t: string) {
    exists i, j :: 0 <= i <= j <= |t| && IsToken(t[i..j])
  }

  /** The scan of `split`: `p` is where the current text piece began, `q` the position being tried. */
  function SplitFrom(s: string, p: nat, q: nat): (parts: seq<string>)
    requires p <= q <= |s|
    decreases |s| - q
  {
    if q == |s| then [s[p..]]
    else
      var n := TokenLength(s, q);
      if n == 0 then SplitFrom(s, p, q + 1)
      else [s[p..q], s[q..q + n]] + SplitFrom(s, q + n, q + n)
  }

  /** `content.split(/(\$img\d+\$)/g)`. */
  function Split(s: string): seq<string> {
    SplitFrom(s, 0, 0)
  }

  function Join(parts: seq<string>): string {
    if parts == [] then [] else parts[0] + Join(parts[1..])
  }

  /** `text` is the rest of `s` from `p`, and no placeholder starts in it. */
  ghost predicate LastPiece(s: string, p: nat, text: string)
    requires p <= |s|
  {
    text == s[p..] && NoTokenStartsIn(s, p, |s|)
  }

  /** `text` then `token` are cut from `s` at `p`: `token` is a placeholder and the first to start at or after `p`. */
  ghost predicate TokenPieces(s: string, p: nat, text: string, token: string) {
    var q := p + |text|;
    var e := q + |token|;
    e <= |s| && s[p..q] == text && s[q..e] == token && IsToken(token) && NoTokenStartsIn(s, p, q)
  }

  /**
   * `parts` is the leftmost placeholder split of `s[p..]`: text, placeholder, text, ...,
   * text, where each placeholder is the first one of `s` that starts after the previous
   * one, and the final text piece holds the start of no placeholder.
   */
  ghost predicate LeftmostFrom(s: string, p: nat, parts: seq<string>)
    requires p <= |s|
    decreases |parts|
  {
    if |parts| == 1 then LastPiece(s, p, parts[0])
    else
      |parts| >= 3 && TokenPieces(s, p, parts[0], parts[1]) &&
      LeftmostFrom(s, p + |parts[0]| + |parts[1]|, parts[2..])
  }

  /**
   * A placeholder found at `q` after a stretch where none starts, followed by the scan of
   * the rest, is a leftmost split.
   */
  lemma {:induction false} LeftmostCons(s: string, p: nat, q: nat, n: nat)
    requires p <= q && 0 < n && q + n <= |s| && IsToken(s[q..q + n]) && NoTokenStartsIn(s, p, q)
    ensures LeftmostFrom(s, p, [s[p..q], s[q..q + n]] + SplitFrom(s, q + n, q + n))
    decreases |s| - q, 0
  {
    var rest := SplitFrom(s, q + n, q + n);
    SplitFromLeftmost(s, q + n, q + n);
    var parts := [s[p..q], s[q..q + n]] + rest;
    assert |rest| >= 1;
    assert parts[2..] == rest;
  }

  /** Where the pattern does not match at `q`, the stretch without a placeholder start grows by one. */
  lemma NoTokenExtend(s: string, p: nat, q: nat)
    requires p <= q < |s| && NoTokenStartsIn(s, p, q) && TokenLength(s, q) == 0
    ensures NoTokenStartsIn(s, p, q + 1)
  {
    forall k, e | p <= k < q + 1 && k <= e <= |s|
      ensures !IsToken(s[k..e])
    {
      if k == q {
        TokenLengthComplete(s, q, e);
      }
    }
  }

  lemma {:induction false} SplitFromLeftmost(s: string, p: nat, q: nat)
    requires p <= q <= |s| && NoTokenStartsIn(s, p, q)
    ensures LeftmostFrom(s, p, SplitFrom(s, p, q))
    decreases |s| - q, 1
  {
    if q == |s| {
      LeftmostEnd(s, p);
    } else {
      var n := TokenLength(s, q);
      if n == 0 {
        SplitFromNoMatch(s, p, q);
        NoTokenExtend(s, p, q);
        SplitFromLeftmost(s, p, q + 1);
      } else {
        SplitFromMatch(s, p, q, q + n);
        LeftmostCons(s, p, q, n);
      }
    }
  }

  /** At the end of the text the scan emits the rest as the final text piece. */
  lemma LeftmostEnd(s: string, p: nat)
    requires p <= |s| && NoTokenStartsIn(s, p, |s|)
    ensures LeftmostFrom(s, p, SplitFrom(s, p, |s|))
  {
    assert SplitFrom(s, p, |s|) == [s[p..]];
  }

  /** Two placeholders starting at the same position are the same placeholder. */
  lemma TokensPrefixFree(s: string, q: nat, e1: nat, e2: nat)
    requires q <= e1 <= |s| && q <= e2 <= |s|
    requires IsToken(s[q..e1]) && IsToken(s[q..e2])
    ensures e1 == e2
  {
    TokenLengthComplete(s, q, e1);
    TokenLengthComplete(s, q, e2);
  }

  /** There is only one leftmost placeholder split. */
  lemma {:induction false} LeftmostUnique(s: string, p: nat, a: seq<string>, b: seq<string>)
    requires p <= |s| && LeftmostFrom(s, p, a) && LeftmostFrom(s, p, b)
    ensures a == b
    decreases |a|
  {
    if |a| != 1 && |b| != 1 {
      var qa, qb := p + |a[0]|, p + |b[0]|;
      var ea, eb := p + |a[0]| + |a[1]|, p + |b[0]| + |b[1]|;
      TokensPrefixFree(s, qa, ea, eb);
      LeftmostUnique(s, ea, a[2..], b[2..]);
      assert a == [a[0], a[1]] + a[2..];
      assert b == [b[0], b[1]] + b[2..];
    }
  }

  /** The pieces of a leftmost split put back together give the text they were cut from. */
  lemma {:induction false} LeftmostJoin(s: string, p: nat, parts: seq<string>)
    requires p <= |s| && LeftmostFrom(s, p, parts)
    ensures Join(parts) == s[p..]
    decreases |parts|
  {
    if |parts| != 1 {
      var q := p + |parts[0]|;
      var e := p + |parts[0]| + |parts[1]|;
      SliceThree(s, p, q, e);
      LeftmostJoin(s, e, parts[2..]);
      JoinTwo(parts);
    }
  }

  lemma SliceThree(s: string, p: nat, q: nat, e: nat)
    requires p <= q <= e <= |s|
    ensures s[p..] == s[p..q] + s[q..e] + s[e..]
  {
  }

  lemma JoinTwo(parts: seq<string>)
    requires |parts| >= 2
    ensures Join(parts) == parts[0] + parts[1] + Join(parts[2..])
  {
    assert parts[1..][1..] == parts[2..];
  }

  /** A piece taken from `s` at `[lo, lo + |t|)` where no placeholder of `s` starts holds no placeholder. */
  lemma TokenFreePiece(s: string, lo: nat, t: string)
    requires lo + |t| <= |s| && s[lo..lo + |t|] == t && NoTokenStartsIn(s, lo, lo + |t|)
    ensures !ContainsToken(t)
  {
    forall i, j | 0 <= i <= j <= |t|
      ensures !IsToken(t[i..j])
    {
      forall k | 0 <= k < j - i
        ensures t[i..j][k] == s[lo + i..lo + j][k]
      {
        assert t[i + k] == s[lo..lo + |t|][i + k];
      }
      assert t[i..j] == s[lo + i..lo + j];
    }
  }

  /** A leftmost split has an odd number of pieces. */
  lemma {:induction false} LeftmostOdd(s: string, p: nat, parts: seq<string>)
    requires p <= |s| && LeftmostFrom(s, p, parts)
    ensures |parts| % 2 == 1
    decreases |parts|
  {
    if |parts| != 1 {
      LeftmostOdd(s, p + |parts[0]| + |parts[1]|, parts[2..]);
    }
  }

  /** The pieces at odd indices of a leftmost split are placeholders. */
  lemma {:induction false} LeftmostTokens(s: string, p: nat, parts: seq<string>)
    requires p <= |s| && LeftmostFrom(s, p, parts)
    ensures forall i :: 0 <= i < |parts| && i % 2 == 1 ==> IsToken(parts[i])
    decreases |parts|
  {
    if |parts| != 1 {
      var rest := parts[2..];
      LeftmostTokens(s, p + |parts[0]| + |parts[1]|, rest);
      forall i | 2 <= i < |parts|
        ensures parts[i] == rest[i - 2]
      {
      }
    }
  }

  /** No piece at an even index of a leftmost split contains a placeholder. */
  lemma {:induction false} LeftmostTexts(s: string, p: nat, parts: seq<string>)
    requires p <= |s| && LeftmostFrom(s, p, parts)
    ensures forall i :: 0 <= i < |parts| && i % 2 == 0 ==> !ContainsToken(parts[i])
    decreases |parts|
  {
    TokenFreePiece(s, p, parts[0]);
    if |parts| != 1 {
      var rest := parts[2..];
      LeftmostTexts(s, p + |parts[0]| + |parts[1]|, rest);
      forall i | 2 <= i < |parts|
        ensures parts[i] == rest[i - 2]
      {
      }
    }
  }

  /**
   * The split is the leftmost placeholder split of the content, and no other sequence of
   * pieces is: its pieces concatenate back to the content in order, they alternate text,
   * placeholder, text, ..., text (k placeholders give 2k + 1 pieces), and no text piece
   * contains a placeholder.
   */
  lemma SplitSpec(s: string)
    ensures LeftmostFrom(s, 0, Split(s))
    ensures Join(Split(s)) == s
    ensures |Split(s)| % 2 == 1
    ensures forall i :: 0 <= i < |Split(s)| && i % 2 == 1 ==> IsToken(Split(s)[i])
    ensures forall i :: 0 <= i < |Split(s)| && i % 2 == 0 ==> !ContainsToken(Split(s)[i])
    ensures forall parts :: LeftmostFrom(s, 0, parts) ==> parts == Split(s)
  {
    SplitFromLeftmost(s, 0, 0);
    LeftmostJoin(s, 0, Split(s));
    LeftmostOdd(s, 0, Split(s));
    LeftmostTokens(s, 0, Split(s));
    LeftmostTexts(s, 0, Split(s));
    forall parts | LeftmostFrom(s, 0, parts)
      ensures parts == Split(s)
    {
      LeftmostUnique(s, 0, parts, Split(s));
    }
  }

  /** Content without a placeholder is split into exactly one piece, the content itself. */
  lemma SplitWithoutToken(s: string)
    requires !ContainsToken(s)
    ensures Split(s) == [s]
  {
    forall k, e | 0 <= k <= e <= |s|
      ensures !IsToken(s[k..e])
    {
    }
    assert LeftmostFrom(s, 0, [s]);
    SplitSpec(s);
  }

  /** Skipping a stretch without `$`: no placeholder can start there. */
  lemma {:induction false} SplitFromSkip(s: string, p: nat, q: nat, r: nat)
    requires p <= q <= r <= |s| && '$' !in s[q..r]
    ensures SplitFrom(s, p, q) == SplitFrom(s, p, r)
    decreases r - q
  {
    if q < r {
      assert s[q] == s[q..r][0];
      if q + 4 <= |s| {
        assert s[q..q + 4][0] == s[q];
      }
      assert s[q + 1..r] == s[q..r][1..];
      SplitFromSkip(s, p, q + 1, r);
    }
  }

  /** One segment of rendered content. */
  datatype Segment = Text(text: string) | Image(key: string, url: string)

  /** `part.replace(/\$/g, '')`. */
  function RemoveDollars(s: string): (r: string)
    ensures '$' !in r
    ensures |r| <= |s|
  {
    if s == [] then []
    else (if s[0] == '$' then [] else [s[0]]) + RemoveDollars(s[1..])
  }

  lemma {:induction false} RemoveDollarsAppend(a: string, b: string)
    ensures RemoveDollars(a + b) == RemoveDollars(a) + RemoveDollars(b)
    decreases |a|
  {
    if a != [] {
      assert (a + b)[0] == a[0];
      assert (a + b)[1..] == a[1..] + b;
      RemoveDollarsAppend(a[1..], b);
    } else {
      assert a + b == b;
    }
  }

  lemma {:induction false} RemoveDollarsNone(s: string)
    requires '$' !in s
    ensures RemoveDollars(s) == s
    decreases |s|
  {
    if s != [] {
      assert s == [s[0]] + s[1..];
      RemoveDollarsNone(s[1..]);
    }
  }

  /** `pictures/<DD-MM-YYYY>/<key>.png?t=<timestamp>` under the site. */
  function PictureUrl(dateKey: string, key: string, ts: int): string {
    SiteBase + "pictures/" + dateKey + "/" + key + ".png?t=" + IntToString(ts)
  }

  /** Position of the first `c` in `s` (`|s|` when there is none). */
  function FirstIndex(s: string, c: char): (i: nat)
    ensures i <= |s|
  {
    if s == [] then 0 else if s[0] == c then 0 else 1 + FirstIndex(s[1..], c)
  }

  lemma {:induction false} FirstIndexAfter(a: string, c: char, b: string)
    requires c !in a
    ensures FirstIndex(a + [c] + b, c) == |a|
    decreases |a|
  {
    if a != [] {
      assert (a + [c] + b)[1..] == a[1..] + [c] + b;
      assert a == [a[0]] + a[1..];
      FirstIndexAfter(a[1..], c, b);
    }
  }

  /** Text joined around a separator that the head never contains splits back uniquely. */
  lemma SeparatorSplits(a: string, b: string, c: char, a': string, b': string)
    requires c !in a && c !in a' && a + [c] + b == a' + [c] + b'
    ensures a == a' && b == b'
  {
    FirstIndexAfter(a, c, b);
    FirstIndexAfter(a', c, b');
    var s := a + [c] + b;
    assert a == s[..|a|] && b == s[|a| + 1..];
    var s' := a' + [c] + b';
    assert a' == s'[..|a'|] && b' == s'[|a'| + 1..];
  }

  lemma PrefixCancel(p: string, x: string, y: string)
    requires p + x == p + y
    ensures x == y
  {
    assert x == (p + x)[|p|..];
    assert y == (p + y)[|p|..];
  }

  lemma PictureUrlShape(p: string, f: string, k: string, t: string)
    ensures p + f + "/" + k + ".png?t=" + t == p + (f + ['/'] + (k + ['.'] + ("png?t=" + t)))
  {
  }

  /**
   * Distinct (day, key, timestamp) triples give distinct picture addresses, for keys
   * without '.': a placeholder's key `img<digits>` is one.
   */
  lemma PictureUrlInjective(d1: Date, k1: string, t1: int, d2: Date, k2: string, t2: int)
    requires d1.Valid() && d2.Valid() && '.' !in k1 && '.' !in k2
    requires PictureUrl(FormatDate(d1), k1, t1) == PictureUrl(FormatDate(d2), k2, t2)
    ensures d1 == d2 && k1 == k2 && t1 == t2
  {
    var prefix := SiteBase + "pictures/";
    var f1, f2 := FormatDate(d1), FormatDate(d2);
    var n1, n2 := IntToString(t1), IntToString(t2);
    PictureUrlShape(prefix, f1, k1, n1);
    PictureUrlShape(prefix, f2, k2, n2);
    PrefixCancel(prefix, f1 + ['/'] + (k1 + ['.'] + ("png?t=" + n1)), f2 + ['/'] + (k2 + ['.'] + ("png?t=" + n2)));
    FormatDateChars(d1);
    FormatDateChars(d2);
    SeparatorSplits(f1, k1 + ['.'] + ("png?t=" + n1), '/', f2, k2 + ['.'] + ("png?t=" + n2));
    SeparatorSplits(k1, "png?t=" + n1, '.', k2, "png?t=" + n2);
    PrefixCancel("png?t=", n1, n2);
    FormatDateInjective(d1, d2);
    IntToStringInjective(t1, t2);
  }

  /** One piece as `renderContent` maps it: a piece starting with `$img` is an image. */
  function Classify(part: string, dateKey: string, ts: int): (seg: Segment)
  {
    if StartsWithImg(part) then
      var key := RemoveDollars(part);
      Image(key, PictureUrl(dateKey, key, ts))
    else Text(part)
  }

  /**
   * `renderContent(content)` for the displayed `date`, with `ts` standing for the clock
   * reading appended to every picture URL. Segment `i` comes from piece `i` of the split.
   */
  function RenderContent(content: string, date: Date, ts: int): (r: seq<Segment>)
    requires date.Valid()
    ensures |r| == |Split(content)|
    ensures forall i :: 0 <= i < |r| ==> (r[i].Image? <==> StartsWithImg(Split(content)[i]))
    ensures forall i :: 0 <= i < |r| && r[i].Text? ==> r[i].text == Split(content)[i]
    ensures forall i :: 0 <= i < |r| && r[i].Image? ==>
      r[i].key == RemoveDollars(Split(content)[i]) && '$' !in r[i].key &&
      r[i].url == PictureUrl(FormatDate(date), r[i].key, ts)
  {
    var dateKey := FormatDate(date);
    var parts := Split(content);
    seq(|parts|, i requires 0 <= i < |parts| => Classify(parts[i], dateKey, ts))
  }

  /** The key of a placeholder `$imgN$` is `imgN`: the placeholder without its two dollars. */
  lemma TokenKey(t: string)
    requires IsToken(t)
    ensures RemoveDollars(t) == t[1..|t| - 1]
    ensures RemoveDollars(t)[..3] == "img" && |RemoveDollars(t)| >= 4
    ensures "$" + RemoveDollars(t) + "$" == t
  {
    var mid := t[1..|t| - 1];
    TokenMiddle(t);
    RemoveDollarsWrapped(mid);
    assert mid[0] == t[1] && mid[1] == t[2] && mid[2] == t[3];
  }

  /** Between the two dollars of a placeholder there is no dollar. */
  lemma TokenMiddle(t: string)
    requires IsToken(t)
    ensures t == "$" + t[1..|t| - 1] + "$" && '$' !in t[1..|t| - 1]
  {
    var mid := t[1..|t| - 1];
    forall k | 0 <= k < |mid|
      ensures mid[k] != '$'
    {
      assert mid[k] == t[k + 1];
      if k + 1 >= 4 {
        assert IsDigit(t[k + 1]);
      }
    }
  }

  lemma RemoveDollarsWrapped(m: string)
    requires '$' !in m
    ensures RemoveDollars("$" + m + "$") == m
  {
    RemoveDollarsAppend("$" + m, "$");
    RemoveDollarsAppend("$", m);
    RemoveDollarsNone(m);
  }

  /** Every placeholder of the content becomes an image whose key is `img` and its digits. */
  lemma RenderTokensAsImages(content: string, date: Date, ts: int)
    requires date.Valid()
    ensures var r := RenderContent(content, date, ts);
      forall i :: 0 <= i < |r| && i % 2 == 1 ==>
        r[i].Image? && "$" + r[i].key + "$" == Split(content)[i] &&
        |r[i].key| >= 4 && r[i].key[..3] == "img"
  {
    var r := RenderContent(content, date, ts);
    SplitSpec(content);
    forall i | 0 <= i < |r| && i % 2 == 1
      ensures r[i].Image? && "$" + r[i].key + "$" == Split(content)[i] &&
        |r[i].key| >= 4 && r[i].key[..3] == "img"
    {
      TokenKey(Split(content)[i]);
    }
  }

  /**
   * Content without a placeholder renders as one segment: a text run equal to the content,
   * unless the content itself starts with `$img`, in which case it is one image keyed by the
   * content without its dollars.
   */
  lemma RenderWithoutToken(content: string, date: Date, ts: int)
    requires date.Valid() && !ContainsToken(content)
    ensures !StartsWithImg(content) ==> RenderContent(content, date, ts) == [Text(content)]
    ensures StartsWithImg(content) ==>
      var key := RemoveDollars(content);
      RenderContent(content, date, ts) == [Image(key, PictureUrl(FormatDate(date), key, ts))]
  {
    SplitWithoutToken(content);
  }

  /** Where a placeholder is found, the scan emits the text before it and the placeholder. */
  lemma SplitFromAtToken(s: string, p: nat, q: nat, e: nat)
    requires p <= q <= e <= |s| && q < |s| && IsToken(s[q..e])
    ensures SplitFrom(s, p, q) == [s[p..q], s[q..e]] + SplitFrom(s, e, e)
  {
    TokenLengthComplete(s, q, e);
    SplitFromMatch(s, p, q, e);
  }

  /** One step of the scan where the pattern does not match at `q`. */
  lemma SplitFromNoMatch(s: string, p: nat, q: nat)
    requires p <= q < |s| && TokenLength(s, q) == 0
    ensures SplitFrom(s, p, q) == SplitFrom(s, p, q + 1)
  {
  }

  /** One step of the scan where the pattern matches `s[q..e]`. */
  lemma SplitFromMatch(s: string, p: nat, q: nat, e: nat)
    requires p <= q < e <= |s| && TokenLength(s, q) == e - q
    ensures SplitFrom(s, p, q) == [s[p..q], s[q..e]] + SplitFrom(s, e, e)
  {
  }

  /** From `p`, a `$`-free run up to `q` and a placeholder `s[q..e]` give two pieces. */
  lemma SplitTextToken(s: string, p: nat, q: nat, e: nat)
    requires p <= q < e <= |s| && '$' !in s[p..q] && IsToken(s[q..e])
    ensures SplitFrom(s, p, p) == [s[p..q], s[q..e]] + SplitFrom(s, e, e)
  {
    SplitFromSkip(s, p, p, q);
    SplitFromAtToken(s, p, q, e);
  }

  /** The pieces of a five-part concatenation, as slices of it. */
  lemma FiveSlices(a: string, t1: string, b: string, t2: string, c: string)
    ensures var s, e1 := a + t1 + b + t2 + c, |a| + |t1|;
      var q2 := e1 + |b|;
      s[0..|a|] == a && s[|a|..e1] == t1 && s[e1..q2] == b && s[q2..q2 + |t2|] == t2 && s[q2 + |t2|..|s|] == c
  {
  }

  /**
   * Text without `$`, a placeholder, text without `$`, a placeholder and text without `$`
   * split into exactly those five pieces.
   */
  lemma SplitFive(a: string, t1: string, b: string, t2: string, c: string)
    requires '$' !in a && '$' !in b && '$' !in c && IsToken(t1) && IsToken(t2)
    ensures Split(a + t1 + b + t2 + c) == [a, t1, b, t2, c]
  {
    var s := a + t1 + b + t2 + c;
    var e1 := |a| + |t1|;
    var q2 := e1 + |b|;
    var e2 := q2 + |t2|;
    FiveSlices(a, t1, b, t2, c);
    SplitTextToken(s, 0, |a|, e1);
    SplitTextToken(s, e1, q2, e2);
    SplitFromSkip(s, e2, e2, |s|);
  }

  /** How "Hello $img1$ world $img2$ end" is split. */
  lemma SplitExample()
    ensures Split("Hello $img1$ world $img2$ end") == ["Hello ", "$img1$", " world ", "$img2$", " end"]
  {
    var s := "Hello $img1$ world $img2$ end";
    var a, t1, b, t2, c := "Hello ", "$img1$", " world ", "$img2$", " end";
    assert s == a + t1 + b + t2 + c;
    ExampleKey(t1, "img1");
    ExampleKey(t2, "img2");
    SplitFive(a, t1, b, t2, c);
  }

  /** "Hello $img1$ world $img2$ end" renders as text, image img1, text, image img2, text. */
  lemma RenderExample(date: Date, ts: int)
    requires date.Valid()
    ensures var k := FormatDate(date);
      RenderContent("Hello $img1$ world $img2$ end", date, ts) ==
      [Text("Hello "), Image("img1", PictureUrl(k, "img1", ts)), Text(" world "),
       Image("img2", PictureUrl(k, "img2", ts)), Text(" end")]
  {
    var content := "Hello $img1$ world $img2$ end";
    SplitExample();
    RenderExampleTexts(content, date, ts);
    RenderExampleImages(content, date, ts);
    var k := FormatDate(date);
    FiveSegments(RenderContent(content, date, ts), Text("Hello "), Image("img1", PictureUrl(k, "img1", ts)),
      Text(" world "), Image("img2", PictureUrl(k, "img2", ts)), Text(" end"));
  }

  lemma FiveSegments(r: seq<Segment>, a: Segment, b: Segment, c: Segment, d: Segment, e: Segment)
    requires |r| == 5 && r[0] == a && r[1] == b && r[2] == c && r[3] == d && r[4] == e
    ensures r == [a, b, c, d, e]
  {
  }

  /** Segment `i` is piece `i` as `Classify` maps it. */
  lemma RenderPiece(content: string, date: Date, ts: int, i: nat)
    requires date.Valid() && i < |Split(content)|
    ensures RenderContent(content, date, ts)[i] == Classify(Split(content)[i], FormatDate(date), ts)
  {
  }

  /** A placeholder is classified as the image keyed by what stands between its dollars. */
  lemma ClassifyToken(t: string, dateKey: string, ts: int)
    requires IsToken(t)
    ensures Classify(t, dateKey, ts) == Image(t[1..|t| - 1], PictureUrl(dateKey, t[1..|t| - 1], ts))
  {
    TokenKey(t);
  }

  lemma RenderExampleTexts(content: string, date: Date, ts: int)
    requires date.Valid() && Split(content) == ["Hello ", "$img1$", " world ", "$img2$", " end"]
    ensures var r := RenderContent(content, date, ts);
      |r| == 5 && r[0] == Text("Hello ") && r[2] == Text(" world ") && r[4] == Text(" end")
  {
    var parts := Split(content);
    assert parts[0][0] == 'H' && parts[2][0] == ' ' && parts[4][0] == ' ';
    RenderPiece(content, date, ts, 0);
    RenderPiece(content, date, ts, 2);
    RenderPiece(content, date, ts, 4);
  }

  /** A placeholder piece renders as the image keyed by what stands between its dollars. */
  lemma RenderTokenAt(content: string, date: Date, ts: int, i: nat)
    requires date.Valid() && i < |Split(content)| && IsToken(Split(content)[i])
    ensures var t := Split(content)[i];
      RenderContent(content, date, ts)[i] == Image(t[1..|t| - 1], PictureUrl(FormatDate(date), t[1..|t| - 1], ts))
  {
    SplitTokenClassified(content, i, FormatDate(date), ts);
    RenderPiece(content, date, ts, i);
  }

  /** The classification of a placeholder piece of the split. */
  lemma SplitTokenClassified(content: string, i: nat, dateKey: string, ts: int)
    requires i < |Split(content)| && IsToken(Split(content)[i])
    ensures var t := Split(content)[i];
      Classify(t, dateKey, ts) == Image(t[1..|t| - 1], PictureUrl(dateKey, t[1..|t| - 1], ts))
  {
    ClassifyToken(Split(content)[i], dateKey, ts);
  }

  lemma RenderExampleImages(content: string, date: Date, ts: int)
    requires date.Valid() && Split(content) == ["Hello ", "$img1$", " world ", "$img2$", " end"]
    ensures var r := RenderContent(content, date, ts);
      var k := FormatDate(date);
      |r| == 5 && r[1] == Image("img1", PictureUrl(k, "img1", ts)) &&
      r[3] == Image("img2", PictureUrl(k, "img2", ts))
  {
    var t1, t3 := Split(content)[1], Split(content)[3];
    var k := FormatDate(date);
    ExampleKey(t1, "img1");
    ExampleKey(t3, "img2");
    RenderTokenAt(content, date, ts, 1);
    RenderTokenAt(content, date, ts, 3);
    var k1, k3 := t1[1..|t1| - 1], t3[1..|t3| - 1];
    assert Image(k1, PictureUrl(k, k1, ts)) == Image("img1", PictureUrl(k, "img1", ts));
    assert Image(k3, PictureUrl(k, k3, ts)) == Image("img2", PictureUrl(k, "img2", ts));
  }

  lemma ExampleKey(t: string, key: string)
    requires |key| == 4 && key[..3] == "img" && IsDigit(key[3]) && t == "$" + key + "$"
    ensures IsToken(t) && t[1..|t| - 1] == key
  {
    assert t[0] == '$' && t[1] == key[0] && t[2] == key[1] && t[3] == key[2] && t[4] == key[3];
    assert key[0] == 'i' && key[1] == 'm' && key[2] == 'g';
  }

  /** The text a segment stands for in the entry: the run itself, or `$<key>$` for an image. */
  function SourceText(seg: Segment): string {
    match seg
    case Text(t) => t
    case Image(key, _) => "$" + key + "$"
  }

  function Unrender(segs: seq<Segment>): string {
    if segs == [] then [] else SourceText(segs[0]) + Unrender(segs[1..])
  }

  lemma {:induction false} UnrenderJoin(segs: seq<Segment>, parts: seq<string>)
    requires |segs| == |parts|
    requires forall i :: 0 <= i < |segs| ==> SourceText(segs[i]) == parts[i]
    ensures Unrender(segs) == Join(parts)
    decreases |segs|
  {
    if segs != [] {
      UnrenderJoin(segs[1..], parts[1..]);
    }
  }

  /** Classification by a full placeholder match: only `$img<digits>$` becomes an image. */
  function ClassifyExact(part: string, dateKey: string, ts: int): Segment
  {
    if IsToken(part) then
      var key := RemoveDollars(part);
      Image(key, PictureUrl(dateKey, key, ts))
    else Text(part)
  }

  /**
   * Rendering with the placeholder matched in full, as the placeholder grammar intends:
   * images stand exactly at the odd positions, where the split put the placeholders.
   */
  function RenderContentExact(content: string, date: Date, ts: int): (r: seq<Segment>)
    requires date.Valid()
    ensures |r| == |Split(content)|
    ensures forall i :: 0 <= i < |r| ==> (r[i].Image? <==> i % 2 == 1)
  {
    var dateKey := FormatDate(date);
    var parts := Split(content);
    SplitTokensAtOdd(content);
    seq(|parts|, i requires 0 <= i < |parts| => ClassifyExact(parts[i], dateKey, ts))
  }

  /** A piece of the split is a placeholder exactly when it stands at an odd index. */
  lemma SplitTokensAtOdd(s: string)
    ensures forall i :: 0 <= i < |Split(s)| ==> (IsToken(Split(s)[i]) <==> i % 2 == 1)
  {
    var parts := Split(s);
    SplitSpec(s);
    forall i | 0 <= i < |parts| && i % 2 == 0
      ensures !IsToken(parts[i])
    {
      NotTokenWhenTokenFree(parts[i]);
    }
  }

  lemma NotTokenWhenTokenFree(t: string)
    requires !ContainsToken(t)
    ensures !IsToken(t)
  {
    assert t[0..|t|] == t;
  }

  /** Rendering by full match loses nothing: the segments give back the entry text exactly. */
  lemma RenderContentExactRoundTrip(content: string, date: Date, ts: int)
    requires date.Valid()
    ensures Unrender(RenderContentExact(content, date, ts)) == content
  {
    var r := RenderContentExact(content, date, ts);
    var parts := Split(content);
    SplitSpec(content);
    forall i | 0 <= i < |r|
      ensures SourceText(r[i]) == parts[i]
    {
      if IsToken(parts[i]) {
        TokenKey(parts[i]);
      }
    }
    UnrenderJoin(r, parts);
  }

  /**
   * The rendering as written agrees with the full-match rendering exactly when no text
   * piece of the split starts with `$img`.
   */
  lemma RenderAsWrittenAgreement(content: string, date: Date, ts: int)
    requires date.Valid()
    ensures RenderContent(content, date, ts) == RenderContentExact(content, date, ts) <==>
      forall i :: 0 <= i < |Split(content)| && i % 2 == 0 ==> !StartsWithImg(Split(content)[i])
  {
    var a, b := RenderContent(content, date, ts), RenderContentExact(content, date, ts);
    var parts := Split(content);
    SplitSpec(content);
    if forall i :: 0 <= i < |parts| && i % 2 == 0 ==> !StartsWithImg(parts[i]) {
      forall i | 0 <= i < |a|
        ensures a[i] == b[i]
      {
        if i % 2 == 1 {
          TokenKey(parts[i]);
        }
      }
    } else {
      var i :| 0 <= i < |parts| && i % 2 == 0 && StartsWithImg(parts[i]);
      assert a[i].Image? && !b[i].Image?;
    }
  }

  lemma SplitImgx()
    ensures !ContainsToken("$imgx") && Split("$imgx") == ["$imgx"]
  {
    var t := "$imgx";
    forall i, j | 0 <= i <= j <= |t|
      ensures !IsToken(t[i..j])
    {
    }
    SplitWithoutToken(t);
  }

  lemma KeyImgx()
    ensures RemoveDollars("$imgx") == "imgx"
  {
    var s := "$imgx";
    var k := s[1..];
    assert k == "imgx";
    assert RemoveDollars(s) == RemoveDollars(k);
    assert k[0] != '$' && k[1] != '$' && k[2] != '$' && k[3] != '$';
    RemoveDollarsNone(k);
  }

  lemma RenderImgx(date: Date, ts: int)
    requires date.Valid()
    ensures RenderContent("$imgx", date, ts) == [Image("imgx", PictureUrl(FormatDate(date), "imgx", ts))]
  {
    SplitImgx();
    KeyImgx();
  }

  /**
   * The text "$imgx" holds no placeholder, yet the rendering as written shows it as an
   * image with key "imgx", and the segments no longer give back the text.
   */
  lemma RenderAsWrittenMisclassifies(date: Date, ts: int)
    requires date.Valid()
    ensures !ContainsToken("$imgx")
    ensures RenderContent("$imgx", date, ts) == [Image("imgx", PictureUrl(FormatDate(date), "imgx", ts))]
    ensures Unrender(RenderContent("$imgx", date, ts)) != "$imgx"
  {
    SplitImgx();
    RenderImgx(date, ts);
    var r := [Image("imgx", PictureUrl(FormatDate(date), "imgx", ts))];
    assert |Unrender(r)| == 6;
  }
}

=== FILE: date_format.dfy ===
/**
 * `formatDate`: the `DD-MM-YYYY` key under which the diary stores a day's page and
 * pictures. Day and month are zero-padded to two digits, the month is printed as its
 * zero-based index plus one, and the year is written as `String(year)` without padding.
 * `ParseDate` is the inverse used to show that the key identifies the day.
 */
module DateFormat {
  import opened Calendar
  import opened Wrappers

  predicate IsDigit(c: char) {
    '0' <= c <= '9'
  }

  predicate AllDigits(s: string) {
    forall i :: 0 <= i < |s| ==> IsDigit(s[i])
  }

  function DigitChar(n: nat): (c: char)
    requires n < 10
    ensures IsDigit(c)
  {
    ('0' as int + n) as char
  }

  function DigitValue(c: char): (n: nat)
    requires IsDigit(c)
    ensures n < 10 && DigitChar(n) == c
  {
    c as int - '0' as int
  }

  /** `String(n)` for a non-negative integer: decimal, no leading zeros, "0" for zero. */
  function NatToString(n: nat): (s: string)
    ensures |s| >= 1 && AllDigits(s)
    ensures |s| > 1 ==> s[0] != '0'
  {
    if n < 10 then [DigitChar(n)] else NatToString(n / 10) + [DigitChar(n % 10)]
  }

  /** `String(y)` for an integer year: a minus sign before negative years. */
  function IntToString(y: int): (s: string)
  {
    if y < 0 then "-" + NatToString(-y) else NatToString(y)
  }

  /** `padStart(2, '0')`. */
  function PadStart2(s: string): (r: string)
    ensures |r| == if |s| < 2 then 2 else |s|
    ensures r[|r| - |s|..] == s
    ensures forall i :: 0 <= i < |r| - |s| ==> r[i] == '0'
  {
    if |s| == 0 then "00" else if |s| == 1 then "0" + s else s
  }

  function FormatDate(d: Date): (s: string)
    requires d.Valid()
  {
    PadStart2(NatToString(d.day)) + "-" + PadStart2(NatToString(d.month + 1)) + "-" + IntToString(d.year)
  }

  /** Decimal value of a digit string (the empty string reads as 0). */
  function ParseNat(s: string): (n: nat)
    requires AllDigits(s)
  {
    if s == [] then 0 else ParseNat(s[..|s| - 1]) * 10 + DigitValue(s[|s| - 1])
  }

  predicate IsIntString(s: string) {
    (|s| >= 1 && AllDigits(s)) || (|s| >= 2 && s[0] == '-' && AllDigits(s[1..]))
  }

  function ParseInt(s: string): (y: int)
    requires IsIntString(s)
  {
    if s[0] == '-' then 0 - ParseNat(s[1..]) else ParseNat(s)
  }

  /** Reads a `DD-MM-Y…` key back into a date; `None` for anything that is not of that shape. */
  function ParseDate(s: string): (r: Option<Date>)
    ensures r.Some? ==> |s| >= 7 && s[2] == '-' && s[5] == '-'
  {
    if |s| >= 7 && s[2] == '-' && s[5] == '-' && AllDigits(s[..2]) && AllDigits(s[3..5])
       && IsIntString(s[6..])
    then Some(Date(ParseInt(s[6..]), ParseNat(s[3..5]) - 1, ParseNat(s[..2])))
    else None
  }

  lemma {:induction false} ParseNatToString(n: nat)
    ensures ParseNat(NatToString(n)) == n
  {
    if n >= 10 {
      var s := NatToString(n);
      assert s[..|s| - 1] == NatToString(n / 10);
      ParseNatToString(n / 10);
    }
  }

  lemma ParseIntToString(y: int)
    ensures IsIntString(IntToString(y)) && ParseInt(IntToString(y)) == y
  {
    if y < 0 {
      var t := NatToString(-y);
      var s := "-" + t;
      assert IntToString(y) == s;
      assert s[1..] == t && s[0] == '-';
      ParseNatToString(-y);
    } else {
      var s := NatToString(y);
      assert IntToString(y) == s;
      assert IsDigit(s[0]);
      ParseNatToString(y);
    }
  }

  /** A zero-padded field of a number from 1 to 99 reads back as that number. */
  lemma PaddedRoundTrip(n: nat)
    requires 1 <= n < 100
    ensures |PadStart2(NatToString(n))| == 2 && AllDigits(PadStart2(NatToString(n)))
    ensures ParseNat(PadStart2(NatToString(n))) == n
  {
    var s := NatToString(n);
    ParseNatToString(n);
    if n < 10 {
      var p := PadStart2(s);
      assert p == ['0', DigitChar(n)];
      assert p[..1] == ['0'];
      assert [DigitChar(n)][..0] == [];
    } else {
      assert NatToString(n / 10) == [DigitChar(n / 10)];
    }
  }

  /** Reading a key assembled from two digit pairs and a year string. */
  lemma ParseDateOf(dd: string, mm: string, yy: string)
    requires |dd| == 2 && |mm| == 2 && AllDigits(dd) && AllDigits(mm) && IsIntString(yy)
    ensures ParseDate(dd + "-" + mm + "-" + yy) == Some(Date(ParseInt(yy), ParseNat(mm) - 1, ParseNat(dd)))
  {
    var s := dd + "-" + mm + "-" + yy;
    KeySlices(dd, mm, yy);
    ParseDateFields(s);
  }

  /** A string of the key's shape is read field by field. */
  lemma ParseDateFields(s: string)
    requires |s| >= 7 && s[2] == '-' && s[5] == '-'
    requires AllDigits(s[..2]) && AllDigits(s[3..5]) && IsIntString(s[6..])
    ensures ParseDate(s) == Some(Date(ParseInt(s[6..]), ParseNat(s[3..5]) - 1, ParseNat(s[..2])))
  {
  }

  lemma KeySlices(dd: string, mm: string, yy: string)
    requires |dd| == 2 && |mm| == 2 && |yy| >= 1
    ensures var s := dd + "-" + mm + "-" + yy;
      |s| >= 7 && s[..2] == dd && s[3..5] == mm && s[6..] == yy && s[2] == '-' && s[5] == '-'
  {
    var a := dd + "-";
    var b := a + mm;
    var c := b + "-";
    var s := c + yy;
    assert s[..6] == c && s[6..] == yy;
    assert c[..5] == b && b[..3] == a && b[3..] == mm && a[..2] == dd;
    assert s[..2] == dd by { assert s[..2] == c[..2] == b[..2] == a[..2]; }
    assert s[3..5] == mm by { assert s[3..5] == c[3..5] == b[3..5]; }
    assert s[2] == '-' && s[5] == '-';
  }

  /** The three fields of a valid date's key, each read back. */
  lemma KeyFields(d: Date)
    requires d.Valid()
    ensures |PadStart2(NatToString(d.day))| == 2 && AllDigits(PadStart2(NatToString(d.day)))
    ensures |PadStart2(NatToString(d.month + 1))| == 2 && AllDigits(PadStart2(NatToString(d.month + 1)))
    ensures IsIntString(IntToString(d.year))
    ensures ParseNat(PadStart2(NatToString(d.day))) == d.day
    ensures ParseNat(PadStart2(NatToString(d.month + 1))) - 1 == d.month
    ensures ParseInt(IntToString(d.year)) == d.year
  {
    PaddedRoundTrip(d.day);
    PaddedRoundTrip(d.month + 1);
    ParseIntToString(d.year);
  }

  /** Parsing the key gives back the date it was formatted from. */
  lemma ParseFormatDate(d: Date)
    requires d.Valid()
    ensures ParseDate(FormatDate(d)) == Some(d)
  {
    var dd := PadStart2(NatToString(d.day));
    var mm := PadStart2(NatToString(d.month + 1));
    var yy := IntToString(d.year);
    assert FormatDate(d) == dd + "-" + mm + "-" + yy;
    KeyFields(d);
    ParseDateOf(dd, mm, yy);
    assert Date(ParseInt(yy), ParseNat(mm) - 1, ParseNat(dd)) == d;
  }

  /** Two different days never share a key, so never share a page or picture folder. */
  lemma FormatDateInjective(a: Date, b: Date)
    requires a.Valid() && b.Valid()
    ensures FormatDate(a) == FormatDate(b) ==> a == b
  {
    ParseFormatDate(a);
    ParseFormatDate(b);
  }

  /**
   * The year field of a key is `String(year)` itself, without padding: the key ends in it,
   * and for a year from 0 on it starts with a zero only when it is the single digit `0`.
   */
  lemma FormatDateYearField(d: Date)
    requires d.Valid()
    ensures |FormatDate(d)| == 6 + |IntToString(d.year)| && FormatDate(d)[6..] == IntToString(d.year)
    ensures d.year >= 0 && |FormatDate(d)| > 7 ==> FormatDate(d)[6] != '0'
  {
    var dd := PadStart2(NatToString(d.day));
    var mm := PadStart2(NatToString(d.month + 1));
    var yy := IntToString(d.year);
    assert FormatDate(d) == dd + "-" + mm + "-" + yy;
    TwoDigitField(d.day);
    TwoDigitField(d.month + 1);
    KeySlices(dd, mm, yy);
  }

  /** A padded field of a number from 1 to 99 has two characters. */
  lemma TwoDigitField(n: nat)
    requires 1 <= n < 100
    ensures |PadStart2(NatToString(n))| == 2
  {
    PaddedRoundTrip(n);
  }

  /** Years below 1000 give keys shorter than ten characters. */
  lemma FormatDateShortYear(d: Date)
    requires d.Valid() && 0 <= d.year < 1000
    ensures |FormatDate(d)| <= 9
  {
    FormatDateYearField(d);
    var y := d.year;
    if y >= 10 {
      assert NatToString(y) == NatToString(y / 10) + [DigitChar(y % 10)];
      if y >= 100 {
        assert NatToString(y / 10) == NatToString(y / 10 / 10) + [DigitChar(y / 10 % 10)];
        assert |NatToString(y / 10 / 10)| == 1;
      }
    }
  }

  lemma FourDigitYear(y: int)
    requires 1000 <= y <= 9999
    ensures |IntToString(y)| == 4 && AllDigits(IntToString(y))
  {
    var a := y / 10;
    var b := a / 10;
    var c := b / 10;
    assert 1 <= c < 10;
    assert |NatToString(c)| == 1;
    assert |NatToString(b)| == 2;
    assert |NatToString(a)| == 3;
  }

  lemma KeyShape(dd: string, mm: string, yy: string)
    requires |dd| == 2 && |mm| == 2 && |yy| == 4 && AllDigits(dd) && AllDigits(mm) && AllDigits(yy)
    ensures var s := dd + "-" + mm + "-" + yy;
      |s| == 10 && s[2] == '-' && s[5] == '-' &&
      forall i :: 0 <= i < 10 && i != 2 && i != 5 ==> IsDigit(s[i])
  {
    var s := dd + "-" + mm + "-" + yy;
    forall i | 0 <= i < 10 && i != 2 && i != 5
      ensures IsDigit(s[i])
    {
      if i < 2 {
        assert s[i] == dd[i];
      } else if i < 5 {
        assert s[i] == mm[i - 3];
      } else {
        assert s[i] == yy[i - 6];
      }
    }
  }

  /** For four-digit years the key is exactly `DD-MM-YYYY`: ten characters, dashes at 2 and 5. */
  lemma FormatDateShape(d: Date)
    requires d.Valid() && 1000 <= d.year <= 9999
    ensures |FormatDate(d)| == 10
    ensures FormatDate(d)[2] == '-' && FormatDate(d)[5] == '-'
    ensures forall i :: 0 <= i < 10 && i != 2 && i != 5 ==> IsDigit(FormatDate(d)[i])
  {
    var dd := PadStart2(NatToString(d.day));
    var mm := PadStart2(NatToString(d.month + 1));
    var yy := IntToString(d.year);
    assert FormatDate(d) == dd + "-" + mm + "-" + yy;
    KeyFields(d);
    FourDigitYear(d.year);
    KeyShape(dd, mm, yy);
  }

  /** The epoch date is keyed "03-02-2026". */
  lemma FormatEpoch()
    ensures FormatDate(Epoch) == "03-02-2026"
  {
    var dd := PadStart2(NatToString(3));
    var mm := PadStart2(NatToString(2));
    var yy := IntToString(2026);
    assert FormatDate(Epoch) == dd + "-" + mm + "-" + yy;
    assert dd == "03" && mm == "02";
    EpochYear();
  }

  lemma EpochYear()
    ensures IntToString(2026) == "2026"
  {
    assert NatToString(20) == NatToString(2) + "0";
    assert NatToString(202) == NatToString(20) + "2";
    assert NatToString(2026) == NatToString(202) + "6";
  }

  /** Only digits and dashes. */
  predicate KeyChars(s: string) {
    forall i :: 0 <= i < |s| ==> IsDigit(s[i]) || s[i] == '-'
  }

  lemma KeyCharsAppend(a: string, b: string)
    requires KeyChars(a) && KeyChars(b)
    ensures KeyChars(a + b)
  {
    forall i | 0 <= i < |a + b|
      ensures IsDigit((a + b)[i]) || (a + b)[i] == '-'
    {
      if i < |a| {
        assert (a + b)[i] == a[i];
      } else {
        assert (a + b)[i] == b[i - |a|];
      }
    }
  }

  lemma YearKeyChars(y: int)
    ensures KeyChars(IntToString(y))
  {
    if y < 0 {
      KeyCharsAppend("-", NatToString(-y));
    }
  }

  lemma PaddedKeyChars(n: nat)
    requires 1 <= n < 100
    ensures KeyChars(PadStart2(NatToString(n)))
  {
    PaddedRoundTrip(n);
  }

  /** A key is made of digits and dashes only, so a '.' or '/' after it marks where it ends. */
  lemma FormatDateChars(d: Date)
    requires d.Valid()
    ensures '.' !in FormatDate(d) && '/' !in FormatDate(d)
  {
    var dd := PadStart2(NatToString(d.day));
    var mm := PadStart2(NatToString(d.month + 1));
    var y := IntToString(d.year);
    assert FormatDate(d) == dd + "-" + mm + "-" + y;
    PaddedKeyChars(d.day);
    PaddedKeyChars(d.month + 1);
    YearKeyChars(d.year);
    var s1 := dd + "-";
    KeyCharsAppend(dd, "-");
    var s2 := s1 + mm;
    KeyCharsAppend(s1, mm);
    var s3 := s2 + "-";
    KeyCharsAppend(s2, "-");
    var s := s3 + y;
    KeyCharsAppend(s3, y);
    NoSeparators(s);
  }

  lemma NoSeparators(s: string)
    requires KeyChars(s)
    ensures '.' !in s && '/' !in s
  {
  }

  lemma IntToStringInjective(a: int, b: int)
    ensures IntToString(a) == IntToString(b) ==> a == b
  {
    ParseIntToString(a);
    ParseIntToString(b);
  }
}

=== FILE: view_controller.dfy ===
/**
 * The diary screen's state: the date on display (`currentDate`) and the entry loaded for
 * it (`data`). The three navigation actions overwrite the date; a settled fetch
 * overwrites the entry. The loading flag and its 500 ms reset are timing and are not
 * part of this model.
 */
module ViewController {
  import opened Calendar
  import opened Wrappers
  import opened ContentFetcher
  import opened ContentRenderer

  class DiaryScreen {
    /** `currentDate`, at day granularity. */
    var current: Date
    /** `data`: the entry on display; `None` stands for the initial `null`. */
    var entry: Option<Entry>

    ghost predicate Valid()
      reads this
    {
      current.Valid()
    }

    /** The screen opens on the epoch date with nothing loaded. */
    constructor ()
      ensures Valid() && current == Epoch && entry.None?
    {
      current := Epoch;
      entry := None;
    }

    /** The "<<" button: one week back, whether or not the button is dimmed. */
    method StepBack()
      requires Valid()
      modifies this
      ensures Valid()
      ensures current == AddDays(old(current), -7)
      ensures Before(current, old(current)) && AddDays(current, 7) == old(current)
      ensures entry == old(entry)
    {
      WeekRoundTrip(current);
      AddDaysOrder(current, -7);
      current := AddDays(current, -7);
    }

    /** The ">>" button: one week forward, whether or not the button is dimmed. */
    method StepForward()
      requires Valid()
      modifies this
      ensures Valid()
      ensures current == AddDays(old(current), 7)
      ensures Before(old(current), current) && AddDays(current, -7) == old(current)
      ensures entry == old(entry)
    {
      WeekRoundTrip(current);
      AddDaysOrder(current, 7);
      current := AddDays(current, 7);
    }

    /** The picker's `onChange`: a chosen date replaces the current one; a dismissal keeps it. */
    method Pick(picked: Option<Date>)
      requires Valid() && (picked.Some? ==> picked.value.Valid())
      modifies this
      ensures Valid()
      ensures current == if picked.Some? then picked.value else old(current)
      ensures entry == old(entry)
    {
      if picked.Some? {
        current := picked.value;
      }
    }

    /**
     * A fetch for `requested` settles: the loaded entry is shown, or, when the request
     * failed or the page was missing, the fallback record for that day with the quote at `pick`.
     */
    method Settle(requested: Date, fetched: Option<Entry>, pick: nat)
      requires Valid() && requested.Valid() && pick < |Quotes|
      modifies this
      ensures Valid() && current == old(current)
      ensures entry == Some(if fetched.Some? then fetched.value else Fallback(requested, pick))
    {
      if fetched.Some? {
        entry := fetched;
      } else {
        entry := Some(Fallback(requested, pick));
      }
    }

    /**
     * The segments shown under the title: the content rendered with the current date's
     * picture folder when the entry has non-empty content, and nothing otherwise.
     */
    function Body(ts: int): (r: seq<Segment>)
      reads this
      requires Valid()
      ensures r != [] <==> entry.Some? && entry.value.content.Some? && entry.value.content.value != ""
      ensures r != [] ==> r == RenderContent(entry.value.content.value, current, ts)
    {
      if entry.Some? && entry.value.content.Some? && entry.value.content.value != "" then
        SplitSpec(entry.value.content.value);
        RenderContent(entry.value.content.value, current, ts)
      else []
    }
  }

  /** Stepping is never blocked: on a dimmed back arrow the screen still moves a week back. */
  method StepBackFromEpoch() returns (moved: Date)
    ensures moved == AddDays(Epoch, -7) && IsPast(Epoch) && Before(moved, Epoch)
  {
    var screen := new DiaryScreen();
    screen.StepBack();
    moved := screen.current;
  }
}

=== FILE: wrappers.dfy ===
/** Optional values: a JSON field that may be absent, a picker that may be dismissed. */
module Wrappers {
  datatype Option<+T> = None | Some(value: T)
}
